=== FILE: README.md ===
# Token detection and transaction-parameter checks, in Dafny

This project models two pieces of a browser wallet's background logic and proves properties of them.

1. **`DetectTokensController`** (app/scripts/controllers/detect-tokens.js). This is the poller that finds ERC-20 tokens the selected account holds but does not track yet.
   - `token_detection.dfy` models one detection tick (`detectNewTokens` after its activity check):
     - candidate selection from the token list, with case-insensitive exclusion of tracked and hidden addresses;
     - the two-slice chunking, including the boundary as written: `slice(1000, length - 1)`;
     - sequential balance queries that abort the tick on the first failure;
     - the `addToken` calls for funded tokens, issued together per chunk; the loop goes on to the next chunk only when all of them resolve.
   - The balance-checker contract call is an oracle, `(account, tokens) -> FetchFailed | NoResult | Balances(seq<Option<nat>>)`. `NoResult` is a callback with neither error nor result; a non-empty chunk then throws at `result[index]`. Whether each `addToken` promise resolves is a second oracle, `Event -> bool`. A tick is the ordered trace of its `BalanceQuery` and `AddToken` calls, and the tick's promise either resolves or rejects.
   - `detect_tokens_controller.dfy` models the controller around the tick as an immutable record:
     - the `isActive` getter;
     - `restartTokenDetection`;
     - the preferences, tokens-controller and keyring subscription handlers;
     - the `interval`, `network`, `keyringMemStore` and `tokenList` setters;
     - the constructor.
   - Handlers return the new record and the effects they trigger, in call order: an out-of-band tick, a cleared timer, an armed timer. The record holds the environment's table of live interval timers. This lets "at most one live timer" be proved for any sequence of inputs after construction.
2. **The transaction-parameter utilities**, as the unit tests in test/unit/app/controllers/transactions/tx-utils-test.js pin them down. These are `normalizeTxParams`, `validateFrom`, `validateRecipient` and `validateTxParams`.
   - The implementing module (app/scripts/controllers/transactions/lib/util) is not part of this model. `tx_params.dfy` therefore defines pure functions over a key→value parameter map that meet every assertion of those tests. Each test is restated as a lemma.
   - Where the tests are silent, the model takes the smallest rule consistent with them. Those choices are listed under "Left out".

Supporting modules: `wrappers.dfy` (`Option`, `Result`) and `text.dfy` (ASCII case folding and hex digits).

Two places where the model follows the code rather than a plain reading of its intent:
- The second chunk is `candidates[1000 .. n-1)`. With more than 1000 candidates, the last one is never queried (`TickNeverQueriesLastCandidate`). The second chunk also has no size bound (`SecondChunkUnbounded`). This boundary is kept as written.
- The exclusion test is `!list.find(x => isEqualCaseInsensitive(x, key))`. This tests the truthiness of the element found. A tracked empty-string address therefore excludes nothing, and `ListedIff` gives the closed form. For every non-empty key, the rule is plain case-insensitive membership.

Three further modelling choices:
- `validateFrom` itself requires the `0x` prefix. An unprefixed 40-digit address passes only after normalisation (`NormalizedFromAccepted`).
- A `to: null` is dropped by normalisation, because falsy fields are omitted. It is not passed through as `null`. The test only asks that the result be falsy.
- Constants from files that are not part of this model: `MINUTE` is 60 000 ms, so the default interval is 180 000 ms. `MAINNET_CHAIN_ID` is `"0x1"`.

## Model

| member | source | states |
|---|---|---|
| Text.EqualsIgnoreCaseProperties | app/scripts/controllers/detect-tokens.js:103-108 | case-insensitive address equality is reflexive, symmetric, transitive and only relates strings of equal length |
| TokenDetection.LookupFindsEntry | app/scripts/controllers/detect-tokens.js:136-140 | in a token list with distinct keys, `tokenList[address]` yields the symbol and decimals stored with that address |
| TokenDetection.FindMatch | app/scripts/controllers/detect-tokens.js:103-108 | `find` returns the first listed address equal to the key up to case (no earlier one matches), or nothing when no listed address matches |
| TokenDetection.ListedIff | app/scripts/controllers/detect-tokens.js:102-109 | a key counts as tracked (or hidden) exactly when it is non-empty and some listed address equals it up to case |
| TokenDetection.Candidates | app/scripts/controllers/detect-tokens.js:99-112 | an entry is a candidate if and only if it is in the token list and is neither tracked nor hidden |
| TokenDetection.CandidatesKeepOrder | app/scripts/controllers/detect-tokens.js:101-112 | candidates occur in the token list at strictly increasing positions, so the original key order is kept |
| TokenDetection.CandidatesAvoidTrackedAndHidden | app/scripts/controllers/detect-tokens.js:102-109 | no candidate with a non-empty address equals any tracked or hidden address up to case |
| TokenDetection.CandidatesDistinct | app/scripts/controllers/detect-tokens.js:99-112 | candidates drawn from a list with distinct keys have distinct addresses |
| TokenDetection.SliceBound | app/scripts/controllers/detect-tokens.js:115 | a slice bound never exceeds the length: an in-range bound is used as is, a bound past the end becomes the length, and a negative bound counts back from the end, stopping at zero |
| TokenDetection.JsSlice | app/scripts/controllers/detect-tokens.js:114-115 | `slice(start, end)` holds the elements from the clamped start on, as many as the clamped end exceeds it by (none when it does not) |
| TokenDetection.ChunksOf | app/scripts/controllers/detect-tokens.js:113-116 | chunk 1 is `candidates[0..min(n,1000))` and chunk 2 is `candidates[1000..n-1)`, of sizes min(n,1000) and max(0,n-1001) |
| TokenDetection.ChunksCoverAllButLast | app/scripts/controllers/detect-tokens.js:113-116 | the chunks, joined, are all candidates when n ≤ 1000 and all but the last when n > 1000 |
| TokenDetection.LastCandidateInNoChunk | app/scripts/controllers/detect-tokens.js:115 | with more than 1000 distinct candidates, the final candidate is in neither chunk |
| TokenDetection.SecondChunkUnbounded | app/scripts/controllers/detect-tokens.js:115 | chunk 2 is not capped at 1000: with more than 2001 candidates it exceeds 1000 addresses |
| TokenDetection.Additions | app/scripts/controllers/detect-tokens.js:129-142 | one chunk adds an entry if and only if its position-aligned balance is present and nonzero, with that entry's symbol and decimals |
| TokenDetection.DetectNewTokens | app/scripts/controllers/detect-tokens.js:92-97 | off mainnet, or with an empty token list, a tick issues no query and adds nothing |
| TokenDetection.AllResolveIff | app/scripts/controllers/detect-tokens.js:134-142 | a chunk's `Promise.all` resolves exactly when every `addToken` call the chunk issues resolves |
| TokenDetection.RunChunks | app/scripts/controllers/detect-tokens.js:117-143 | a loop over at least one chunk opens with the first chunk's query, and a first chunk that does not proceed ends the loop with that chunk's own calls |
| TokenDetection.FirstStop | app/scripts/controllers/detect-tokens.js:117-143 | every chunk before the returned index proceeded (result read, all `addToken` promises resolved), and the chunk at it (if any) did not |
| TokenDetection.RunRejectsIff | app/scripts/controllers/detect-tokens.js:117-143 | the loop ends in a rejection exactly when it stops at a chunk whose query did not fail, i.e. on a missing result or a rejected `addToken`; a failed query returns normally |
| TokenDetection.RunChunksQueries | app/scripts/controllers/detect-tokens.js:117-143 | the chunks are queried in order up to and including the first one the loop stops at, and none after it |
| TokenDetection.RunChunksAdditions | app/scripts/controllers/detect-tokens.js:117-142 | a token is added if and only if it sits at a funded position of a chunk whose query was issued and whose result could be read |
| TokenDetection.AddedTokensAreFunded | app/scripts/controllers/detect-tokens.js:117-142 | every token a run adds sits at a funded position of a chunk whose query was issued |
| TokenDetection.FundedTokensAreAdded | app/scripts/controllers/detect-tokens.js:117-142 | every funded position of a chunk whose query was issued is added by the run |
| TokenDetection.TickQueriesBothChunks | app/scripts/controllers/detect-tokens.js:117-143 | the tick issues chunk 1's query and then chunk 2's exactly when chunk 1 proceeds, even when a chunk is empty; otherwise only chunk 1's |
| TokenDetection.TickStopsAtFailedQuery | app/scripts/controllers/detect-tokens.js:119-127 | a failed first query ends the tick with nothing added; a failed second query keeps the first chunk's additions and adds nothing more; neither rejects |
| TokenDetection.TickStopsAtRejection | app/scripts/controllers/detect-tokens.js:129-142 | a missing result for a non-empty chunk 1, or a rejected `addToken` of chunk 1, rejects the tick before chunk 2 is queried; all of chunk 1's `addToken` calls are still issued |
| TokenDetection.TickAddsExactlyFunded | app/scripts/controllers/detect-tokens.js:129-142 | a tick adds exactly the funded candidates of the chunks whose query it issued |
| TokenDetection.TickAddsListedTokens | app/scripts/controllers/detect-tokens.js:135-141 | every added token is a non-tracked, non-hidden key of the token list, added with the symbol and decimals stored under that key |
| TokenDetection.TickNeverQueriesLastCandidate | app/scripts/controllers/detect-tokens.js:113-120 | with more than 1000 candidates, no balance query of the tick mentions the last candidate |
| DetectTokensController.SetInterval | app/scripts/controllers/detect-tokens.js:163-171 | an existing handle is cleared first; a new timer with the given period is armed only for a truthy interval; nothing else changes |
| DetectTokensController.SetIntervalReplacesTimer | app/scripts/controllers/detect-tokens.js:163-171 | after setting the interval, the only live timer is the new one, or none for a falsy interval |
| DetectTokensController.FireTimer | app/scripts/controllers/detect-tokens.js:168-170 | a timer callback starts a tick only while that timer is live |
| DetectTokensController.OldTimersNeverFire | app/scripts/controllers/detect-tokens.js:164 | once the interval is set again, no previously live timer can fire |
| DetectTokensController.SetNetwork | app/scripts/controllers/detect-tokens.js:176-182 | a falsy network changes nothing; otherwise only the network binding changes |
| DetectTokensController.SetTokenList | app/scripts/controllers/detect-tokens.js:207-212 | a falsy token list changes nothing; otherwise only the token-list binding changes |
| DetectTokensController.SetKeyringMemStore | app/scripts/controllers/detect-tokens.js:189-194 | a falsy store changes nothing; otherwise the keyring handler gains one more subscription |
| DetectTokensController.RestartTokenDetection | app/scripts/controllers/detect-tokens.js:151-157 | nothing happens unless the controller is active with a truthy selected address; otherwise exactly one tick starts and the default-period timer is armed |
| DetectTokensController.OnPreferencesChange | app/scripts/controllers/detect-tokens.js:48-57 | the address and preference are recorded, and a tick starts only if one of them changed while the controller is active with a truthy new address |
| DetectTokensController.PreferencesRedeliveryIsNoop | app/scripts/controllers/detect-tokens.js:48-57 | delivering the same preferences a second time changes nothing and starts nothing |
| DetectTokensController.OnTokensChange | app/scripts/controllers/detect-tokens.js:58-63 | tracked and hidden addresses are replaced, with missing lists read as empty; nothing else changes |
| DetectTokensController.OnKeyringChange | app/scripts/controllers/detect-tokens.js:194-201 | the new lock state is recorded, and a tick starts only on a change to unlocked while open with a truthy address; locking starts nothing |
| DetectTokensController.DeliverKeyringOnce | app/scripts/controllers/detect-tokens.js:189-201 | however many times the keyring store was set, a lock-state change acts as one handler run |
| DetectTokensController.Tick | app/scripts/controllers/detect-tokens.js:83-143 | an inactive controller's tick resolves doing nothing; an active one rejects exactly when the token list or network was never bound or the loop rejects; off mainnet it resolves doing nothing, and on mainnet with a list its first call queries for the selected address; on an active controller with both bindings the calls are exactly those of the detection loop on the controller's token list, network, tracked and hidden lists and selected address |
| DetectTokensController.TickAddsSelectedListedToken | app/scripts/controllers/detect-tokens.js:83-143 | a token a controller tick adds implies an active controller on mainnet; the token is neither tracked nor hidden and is added with the symbol and decimals its token-list entry holds |
| DetectTokensController.ActivityFollowsOpenAndUnlock | app/scripts/controllers/detect-tokens.js:219-221 | `isActive` is `isOpen && isUnlocked`: only setting the open flag or a keyring change alters it, and each sets it from the other flag and its own new value |
| DetectTokensController.Create | app/scripts/controllers/detect-tokens.js:28-47 | a new controller is inactive, has at most the one timer for the given (or default) interval, and holds the given bindings and address, the tokens controller's tracked and hidden lists, and one keyring subscription exactly when a keyring store was given |
| DetectTokensController.NeverTwoLiveTimers | app/scripts/controllers/detect-tokens.js:163-171 | after construction, whatever sequence of events and setter calls follows, at most one interval timer is live |
| TxParams.AddHexPrefix | test/unit/app/controllers/transactions/tx-utils-test.js:42-48 | a string that does not start with `0x` becomes exactly `0x` followed by the original; a string that already starts with `0x`, and every non-string value, is returned unchanged |
| TxParams.NormalizeTxParams | test/unit/app/controllers/transactions/tx-utils-test.js:29-48 | the output holds only recognised keys, never `chainId`, keeps every truthy recognised field, and hex-prefixes each string |
| TxParams.NormalizeIdempotent | test/unit/app/controllers/transactions/tx-utils-test.js:38-48 | normalising a normalised set changes nothing |
| TxParams.NormalizeTestCase | test/unit/app/controllers/transactions/tx-utils-test.js:29-44 | the test's set loses `chainId`, its null `to` and `random`, and `from` and `data` start with `0x` |
| TxParams.NormalizeTestCaseWithRecipient | test/unit/app/controllers/transactions/tx-utils-test.js:46-48 | a non-null `to` starts with `0x` after normalisation |
| TxParams.ValidateFrom | test/unit/app/controllers/transactions/tx-utils-test.js:76-106 | succeeds exactly for a string `0x` plus forty hex digits; fails as "not a string" for a missing or non-string `from` and as "not an address" otherwise |
| TxParams.ValidateFromAcceptsAddresses | test/unit/app/controllers/transactions/tx-utils-test.js:103-105 | every `0x` plus forty hex digits passes, whatever else the set holds |
| TxParams.NormalizedFromAccepted | test/unit/app/controllers/transactions/tx-utils-test.js:32-42 | forty hex digits without the prefix pass `validateFrom` once normalised |
| TxParams.ValidateFromMissingTestCase | test/unit/app/controllers/transactions/tx-utils-test.js:79-83 | a missing `from` fails with "Invalid from address undefined not a string" |
| TxParams.ValidateFromArrayTestCase | test/unit/app/controllers/transactions/tx-utils-test.js:85-89 | an array `from` fails with the not-a-string message |
| TxParams.ValidateFromObjectTestCase | test/unit/app/controllers/transactions/tx-utils-test.js:91-95 | an object `from` fails with the not-a-string message |
| TxParams.ValidateFromSentenceTestCase | test/unit/app/controllers/transactions/tx-utils-test.js:97-101 | a string that is not an address fails with "Invalid from address" |
| TxParams.ValidateFromAcceptanceTestCase | test/unit/app/controllers/transactions/tx-utils-test.js:103-105 | the test's address passes |
| TxParams.ValidateRecipient | test/unit/app/controllers/transactions/tx-utils-test.js:53-73 | fails exactly for `to = "0x"` without truthy data; otherwise drops a `0x` recipient and leaves every other key unchanged |
| TxParams.ValidateRecipientTestCases | test/unit/app/controllers/transactions/tx-utils-test.js:54-72 | `0x` with contract data yields exactly the input minus `to`; `0x` alone fails with "Invalid recipient address" |
| TxParams.ValidateValue | test/unit/app/controllers/transactions/tx-utils-test.js:15-25 | an absent or non-negative value passes unchanged; a value with a minus sign fails and the error shows it |
| TxParams.ValueCheckRejectsExactlyNegatives | test/unit/app/controllers/transactions/tx-utils-test.js:7-25 | a hex-encoded integer value is rejected if and only if it is negative |
| TxParams.ValidateTxParams | test/unit/app/controllers/transactions/tx-utils-test.js:6-25 | passes exactly when sender, recipient and value checks all pass; a sender failure is reported first |
| TxParams.ValidateTxParamsTestCases | test/unit/app/controllers/transactions/tx-utils-test.js:7-25 | value `0x01` passes and value `-0x01` fails |
| TxParams.Validate | test/unit/app/controllers/transactions/tx-utils-test.js:6-50 | an accepted set is normalised, has an address as sender, has no `0x` recipient and has no `chainId` |
| TxParams.ValidateIdempotent | test/unit/app/controllers/transactions/tx-utils-test.js:6-50 | validating an accepted set again gives it back unchanged |
| TxParams.PipelineRejectsNegativeValue | test/unit/app/controllers/transactions/tx-utils-test.js:15-25 | normalisation keeps a negative value's minus sign, so normalise-then-validate rejects it |

## Left out

- The Web3 contract call (`_getTokenBalances`, `new Web3`, `setProvider`): this is foreign I/O. It becomes the balance oracle, a pure function of account and token addresses.
- The tokens controller's `addToken`: foreign code. Only whether its promise resolves is modelled, as the `AddOracle`; what it stores is not.
- Timers and asynchrony: `setInterval`/`clearInterval` become effects plus a table of live timers. Of `Promise.all`, only its settling is modelled (it rejects when any `addToken` does). Overlapping out-of-band and timer ticks are not modelled. A tick reads one snapshot of the controller, including the selected address, the balance provider and the tokens controller used for both chunks. In the source, the second chunk re-reads `selectedAddress`, `this.web3` and `this.tokensController` after an await. A network switch between the chunks (the setter replaces `this.web3`, line 181) therefore sends chunk 2's query to the new provider, and the mainnet check at line 93 is not repeated.
- The order of the `addToken` calls within a chunk is kept, but their concurrent completion is not modelled.
- The token list and network are read from the token-list and network controllers' state on every tick. The model holds them as bindings in the controller record, so a change in those controllers' state is represented by a `TokenListSet` or `NetworkSet` input.
- BN and logging: a balance is `Option<nat>`, and "present and nonzero" replaces `balance && !balance.isZero()`. The `warn` call on a failed query has no observable effect in the model.
- `isEqualCaseInsensitive` lives in a file that is not part of this model. It is modelled as equality after ASCII lower-casing of two strings.
- Object key order: the token list is a sequence of entries in enumeration order. JavaScript's rule that integer-like keys come first is not modelled.
- A controller built without a tokens controller would hold `undefined` tracked and hidden lists and throw inside the tick. The model holds empty lists instead.
- `isOpen` is never assigned in the controller. It is an external input: `OpenSet` in `DetectTokensController.Input`, initially false.
- DetectTokensController.SetInterval: the guarantee that the old timer is gone from the live table is stated only for handles the controller issued itself (`handle < nextTimer`). `SetIntervalReplacesTimer` states it for every reachable controller.
- The transaction util implementation is not part of this model. Whatever checks it makes beyond what the unit tests fix are unknown and not modelled. This includes parameter values other than strings, arrays, objects and `null`.
- TxParams.ValidateValue: "negative" means that the value's string form contains a minus sign. Full hex parsing is not modelled. `ValueCheckRejectsExactlyNegatives` shows that this agrees with the sign for every hex-encoded integer.
- TxParams.Message: the text of the negative-value error is a placeholder. The unit tests require only that an error is thrown.
- The recognised keys kept by normalisation are `from`, `to`, `value`, `data`, `gas` and `gasPrice`. All of them are hex-prefixed.
- ui/pages/confirm-transaction/confirm-transaction.container.js and ui/components/app/advanced-gas-fee-popover/context/advancedGasFeePopover.js are UI wiring and React state, with no core logic.

=== FILE: detect_tokens_controller.dfy ===
/**
 * The control state around the detection tick in `DetectTokensController`:
 * the subscription handlers for preferences, tracked tokens and the keyring,
 * `restartTokenDetection`, the `interval`, `network`, `keyringMemStore` and
 * `tokenList` setters, and the `isActive` getter.
 *
 * The controller is an immutable record; every handler returns the new record
 * and the side effects it triggered, in call order. `setInterval` and
 * `clearInterval` act on a table of live timers kept in the record, so that
 * "at most one live timer" can be stated and proved.
 */
module DetectTokensController {
  import opened Wrappers
  import opened TokenDetection

  const Minute: int := 60 * 1000

  /** The default polling period, three minutes in milliseconds. */
  const DefaultInterval: int := 3 * Minute

  type TimerId = nat

  datatype Network = Network(chainId: string)

  /** Side effects in call order: a detection tick started out of band, or a timer cleared or armed. */
  datatype Effect = StartTick | ClearTimer(id: TimerId) | ArmTimer(id: TimerId, period: int)

  /**
   * The controller's fields. `None` is JavaScript's `undefined`. `isOpen` is
   * never written by the controller itself. `handle` is `_handle`, which keeps
   * its old value after `clearInterval`; `timers` is the environment's table of
   * live interval timers and their periods.
   */
  datatype State = State(
    isOpen: bool,
    isUnlocked: Option<bool>,
    selectedAddress: Option<Address>,
    useTokenDetection: Option<bool>,
    tokenAddresses: seq<Address>,
    hiddenTokens: seq<Address>,
    network: Option<Network>,
    tokenList: Option<seq<TokenEntry>>,
    keyringSubscriptions: nat,
    handle: Option<TimerId>,
    timers: map<TimerId, int>,
    nextTimer: TimerId)

  datatype Step = Step(state: State, effects: seq<Effect>)

  /** The `isActive` getter: `isOpen && isUnlocked`. */
  predicate IsActive(s: State) {
    s.isOpen && s.isUnlocked == Some(true)
  }

  /** `selectedAddress` is truthy. */
  predicate HasAccount(s: State) {
    s.selectedAddress.Some? && s.selectedAddress.value != ""
  }

  /** Every live timer is the one `_handle` names, and handles are handed out fresh. */
  ghost predicate Wf(s: State) {
    && (forall id :: id in s.timers ==> s.handle == Some(id))
    && (s.handle.Some? ==> s.handle.value < s.nextTimer)
  }

  lemma AtMostOneTimer(s: State)
    requires Wf(s)
    ensures |s.timers| <= 1
  {
    if s.handle.Some? {
      if s.handle.value in s.timers {
        assert s.timers.Keys == {s.handle.value};
      } else {
        assert s.timers.Keys == {};
      }
    } else {
      assert s.timers.Keys == {};
    }
  }

  // ---------------------------------------------------------------------------
  // Setters
  // ---------------------------------------------------------------------------

  /** `set interval`: clear the old handle if there is one, then arm a new timer unless the interval is falsy. */
  function SetInterval(s: State, interval: int): (r: Step)
    ensures s.handle.Some? ==> |r.effects| > 0 && r.effects[0] == ClearTimer(s.handle.value)
    ensures s.handle.Some? && s.handle.value < s.nextTimer ==> s.handle.value !in r.state.timers
    ensures s.handle.None? ==> forall id :: ClearTimer(id) !in r.effects
    ensures interval == 0 ==> r.state.handle == s.handle && r.state.timers.Keys <= s.timers.Keys
    ensures interval != 0 ==>
      && r.state.handle.Some? && r.state.handle.value in r.state.timers
      && r.state.timers[r.state.handle.value] == interval
      && |r.effects| > 0 && r.effects[|r.effects| - 1] == ArmTimer(r.state.handle.value, interval)
    ensures interval == 0 ==> forall id, p :: ArmTimer(id, p) !in r.effects
    ensures r.state.(handle := s.handle, timers := s.timers, nextTimer := s.nextTimer) == s
  {
    var cleared := if s.handle.Some? then s.timers - {s.handle.value} else s.timers;
    var clears := if s.handle.Some? then [ClearTimer(s.handle.value)] else [];
    if interval == 0 then
      Step(s.(timers := cleared), clears)
    else
      var id := s.nextTimer;
      Step(s.(handle := Some(id), timers := cleared[id := interval], nextTimer := id + 1),
           clears + [ArmTimer(id, interval)])
  }

  /** On a well-formed controller, setting the interval leaves exactly the new timer live, or none for a falsy interval. */
  lemma SetIntervalReplacesTimer(s: State, interval: int)
    requires Wf(s)
    ensures Wf(SetInterval(s, interval).state)
    ensures var r := SetInterval(s, interval).state;
      if interval == 0 then r.timers == map[] else r.handle.Some? && r.timers == map[r.handle.value := interval]
  {
    var r := SetInterval(s, interval).state;
    if interval == 0 {
      assert r.timers.Keys == {};
    } else {
      assert r.timers.Keys == {r.handle.value};
    }
  }

  /** An interval timer that fires starts a tick only while it is live. */
  function FireTimer(s: State, id: TimerId): (effects: seq<Effect>)
    ensures effects != [] <==> id in s.timers
  {
    if id in s.timers then [StartTick] else []
  }

  /** After the interval is set again, no timer that was live before can fire. */
  lemma OldTimersNeverFire(s: State, interval: int, id: TimerId)
    requires Wf(s)
    requires id in s.timers
    ensures FireTimer(SetInterval(s, interval).state, id) == []
  {
  }

  /** `set network`: ignore a falsy network, otherwise bind it. */
  function SetNetwork(s: State, network: Option<Network>): (r: State)
    ensures network.None? ==> r == s
    ensures network.Some? ==> r.network == network && r.(network := s.network) == s
  {
    if network.None? then s else s.(network := network)
  }

  /** `set tokenList`: ignore a falsy token list, otherwise bind it. */
  function SetTokenList(s: State, list: Option<seq<TokenEntry>>): (r: State)
    ensures list.None? ==> r == s
    ensures list.Some? ==> r.tokenList == list && r.(tokenList := s.tokenList) == s
  {
    if list.None? then s else s.(tokenList := list)
  }

  /** `set keyringMemStore`: ignore a falsy store, otherwise subscribe the keyring handler once more. */
  function SetKeyringMemStore(s: State, provided: bool): (r: State)
    ensures !provided ==> r == s
    ensures provided ==>
      r.keyringSubscriptions == s.keyringSubscriptions + 1 && r.(keyringSubscriptions := s.keyringSubscriptions) == s
  {
    if !provided then s else s.(keyringSubscriptions := s.keyringSubscriptions + 1)
  }

  // ---------------------------------------------------------------------------
  // Restart and the subscription handlers
  // ---------------------------------------------------------------------------

  /** `restartTokenDetection`: when active with a selected address, start a tick and re-arm the default timer. */
  function RestartTokenDetection(s: State): (r: Step)
    ensures !(IsActive(s) && HasAccount(s)) ==> r == Step(s, [])
    ensures IsActive(s) && HasAccount(s) ==>
      && |r.effects| > 0 && r.effects[0] == StartTick
      && StartTick !in r.effects[1..]
      && r.state.handle.Some? && r.state.handle.value in r.state.timers
      && r.state.timers[r.state.handle.value] == DefaultInterval
    ensures r.state.(handle := s.handle, timers := s.timers, nextTimer := s.nextTimer) == s
  {
    if !(IsActive(s) && HasAccount(s)) then Step(s, [])
    else
      var st := SetInterval(s, DefaultInterval);
      assert StartTick !in st.effects by {
        assert forall e :: e in st.effects ==> e.ClearTimer? || e.ArmTimer?;
      }
      Step(st.state, [StartTick] + st.effects)
  }

  /** The preferences subscription: record and restart only when the address or the detection preference changed. */
  function OnPreferencesChange(s: State, selected: Option<Address>, useDetection: Option<bool>): (r: Step)
    ensures s.selectedAddress == selected && s.useTokenDetection == useDetection ==> r == Step(s, [])
    ensures r.state.selectedAddress == selected && r.state.useTokenDetection == useDetection
    ensures (StartTick in r.effects)
        <==> (s.selectedAddress != selected || s.useTokenDetection != useDetection)
             && IsActive(s) && selected.Some? && selected.value != ""
    ensures IsActive(r.state) == IsActive(s)
  {
    if s.selectedAddress != selected || s.useTokenDetection != useDetection then
      RestartTokenDetection(s.(selectedAddress := selected, useTokenDetection := useDetection))
    else
      Step(s, [])
  }

  /** Delivering the same preferences twice: the second delivery changes nothing and starts nothing. */
  lemma PreferencesRedeliveryIsNoop(s: State, selected: Option<Address>, useDetection: Option<bool>)
    ensures var r := OnPreferencesChange(s, selected, useDetection);
      OnPreferencesChange(r.state, selected, useDetection) == Step(r.state, [])
  {
  }

  /** The tokens-controller subscription: replace the tracked and hidden addresses, absent lists read as empty. */
  function OnTokensChange(s: State, tokens: Option<seq<Address>>, ignored: Option<seq<Address>>): (r: State)
    ensures r.tokenAddresses == tokens.GetOr([]) && r.hiddenTokens == ignored.GetOr([])
    ensures r.(tokenAddresses := s.tokenAddresses, hiddenTokens := s.hiddenTokens) == s
  {
    s.(tokenAddresses := tokens.GetOr([]), hiddenTokens := ignored.GetOr([]))
  }

  /** The keyring subscription: record a changed lock state and restart only on a change to unlocked. */
  function OnKeyringChange(s: State, isUnlocked: bool): (r: Step)
    ensures s.isUnlocked == Some(isUnlocked) ==> r == Step(s, [])
    ensures r.state.isUnlocked == Some(isUnlocked)
    ensures (StartTick in r.effects)
        <==> s.isUnlocked != Some(isUnlocked) && isUnlocked && s.isOpen && HasAccount(s)
    ensures !isUnlocked ==> r.effects == []
  {
    if s.isUnlocked != Some(isUnlocked) then
      var s' := s.(isUnlocked := Some(isUnlocked));
      if isUnlocked then RestartTokenDetection(s') else Step(s', [])
    else
      Step(s, [])
  }

  /** A keyring change delivered to each of `n` subscriptions of the handler, in order. */
  function DeliverKeyringChange(s: State, isUnlocked: bool, n: nat): Step
    decreases n
  {
    if n == 0 then Step(s, [])
    else
      var first := OnKeyringChange(s, isUnlocked);
      var rest := DeliverKeyringChange(first.state, isUnlocked, n - 1);
      Step(rest.state, first.effects + rest.effects)
  }

  lemma {:induction false} DeliverKeyringNoop(s: State, isUnlocked: bool, n: nat)
    requires s.isUnlocked == Some(isUnlocked)
    ensures DeliverKeyringChange(s, isUnlocked, n) == Step(s, [])
    decreases n
  {
    if n > 0 {
      DeliverKeyringNoop(s, isUnlocked, n - 1);
    }
  }

  /** However often the keyring store was set, a change acts as if the handler were subscribed once. */
  lemma DeliverKeyringOnce(s: State, isUnlocked: bool, n: nat)
    requires n >= 1
    ensures DeliverKeyringChange(s, isUnlocked, n) == OnKeyringChange(s, isUnlocked)
  {
    var first := OnKeyringChange(s, isUnlocked);
    DeliverKeyringNoop(first.state, isUnlocked, n - 1);
    assert first.effects + [] == first.effects;
  }

  // ---------------------------------------------------------------------------
  // The tick as the controller runs it
  // ---------------------------------------------------------------------------

  /**
   * How a tick's promise settles, with the calls it issued: it resolves, or it
   * rejects (reading an unset token list or network, or from inside the loop).
   */
  datatype TickOutcome = Resolved(trace: seq<Event>) | Rejected(trace: seq<Event>)

  /** What a tick reads from the controller's fields once both bindings are set. */
  function TickInputOf(s: State): TickInput
    requires s.tokenList.Some? && s.network.Some?
  {
    TickInput(s.network.value.chainId, s.tokenList.value, s.tokenAddresses, s.hiddenTokens, s.selectedAddress)
  }

  /** `detectNewTokens` on the controller's current fields. */
  function Tick(s: State, oracle: BalanceOracle, added: AddOracle): (o: TickOutcome)
    ensures !IsActive(s) ==> o == Resolved([])
    ensures IsActive(s) && (s.tokenList.None? || s.network.None?) ==> o == Rejected([])
    ensures o.Rejected? <==>
      IsActive(s) && (s.tokenList.None? || s.network.None? || DetectRejects(TickInputOf(s), oracle, added))
    ensures IsActive(s) && s.tokenList.Some? && s.network.Some?
            && (s.network.value.chainId != MainnetChainId || |s.tokenList.value| == 0)
            ==> o == Resolved([])
    ensures IsActive(s) && s.tokenList.Some? && s.network.Some? && s.network.value.chainId == MainnetChainId
            && |s.tokenList.value| > 0
            ==> |o.trace| > 0 && o.trace[0].BalanceQuery? && o.trace[0].account == s.selectedAddress
    ensures IsActive(s) && s.tokenList.Some? && s.network.Some?
            ==> o.trace == DetectNewTokens(TickInputOf(s), oracle, added)
  {
    if !IsActive(s) then Resolved([])
    else if s.tokenList.None? || s.network.None? then Rejected([])
    else
      var input := TickInputOf(s);
      var trace := DetectNewTokens(input, oracle, added);
      if DetectRejects(input, oracle, added) then Rejected(trace) else Resolved(trace)
  }

  /**
   * A token the controller's tick adds was looked at only because the controller
   * is active and on mainnet. It is neither tracked nor hidden, and it is added
   * with the symbol and decimals the token list stores under it.
   */
  lemma TickAddsSelectedListedToken(s: State, oracle: BalanceOracle, added: AddOracle, a: Address, symbol: string, decimals: nat)
    requires s.tokenList.Some? ==> DistinctKeys(s.tokenList.value)
    requires AddToken(a, symbol, decimals) in Tick(s, oracle, added).trace
    ensures IsActive(s) && s.tokenList.Some? && s.network.Some?
    ensures s.network.value.chainId == MainnetChainId
    ensures Selected(a, s.tokenAddresses, s.hiddenTokens)
    ensures Lookup(s.tokenList.value, a) == Some(TokenMeta(symbol, decimals))
  {
    TickAddsListedTokens(TickInputOf(s), oracle, added, a, symbol, decimals);
  }

  // ---------------------------------------------------------------------------
  // Construction and arbitrary input sequences
  // ---------------------------------------------------------------------------

  /** The constructor's options; `tokens`/`ignoredTokens` are the tokens controller's state. */
  datatype Config = Config(
    interval: Option<int>,
    selectedAddress: Option<Address>,
    network: Option<Network>,
    keyringStore: bool,
    tokenList: Option<seq<TokenEntry>>,
    tokens: seq<Address>,
    ignoredTokens: seq<Address>)

  /** The constructor: run the setters in source order, then read the preferences and token state. */
  function Create(config: Config): (r: Step)
    ensures Wf(r.state)
    ensures !IsActive(r.state)
    ensures var period := config.interval.GetOr(DefaultInterval);
      if period == 0 then r.state.timers == map[]
      else r.state.handle.Some? && r.state.timers == map[r.state.handle.value := period]
    ensures r.state.network == config.network && r.state.tokenList == config.tokenList
    ensures r.state.selectedAddress == config.selectedAddress
    ensures r.state.tokenAddresses == config.tokens && r.state.hiddenTokens == config.ignoredTokens
    ensures r.state.keyringSubscriptions == if config.keyringStore then 1 else 0
  {
    var s0 := State(false, None, None, None, [], [], None, None, 0, None, map[], 1);
    var armed := SetInterval(s0, config.interval.GetOr(DefaultInterval));
    SetIntervalReplacesTimer(s0, config.interval.GetOr(DefaultInterval));
    var s1 := SetNetwork(armed.state, config.network);
    var s2 := SetKeyringMemStore(s1, config.keyringStore);
    var s3 := SetTokenList(s2, config.tokenList);
    var s4 := s3.(selectedAddress := config.selectedAddress,
                  tokenAddresses := config.tokens,
                  hiddenTokens := config.ignoredTokens);
    Step(s4, armed.effects)
  }

  /** Everything that can happen to a controller from outside. */
  datatype Input =
    | PreferencesChanged(selected: Option<Address>, useDetection: Option<bool>)
    | TokensChanged(tokens: Option<seq<Address>>, ignored: Option<seq<Address>>)
    | KeyringChanged(isUnlocked: bool)
    | OpenSet(isOpen: bool)
    | IntervalSet(interval: int)
    | NetworkSet(network: Option<Network>)
    | TokenListSet(list: Option<seq<TokenEntry>>)
    | KeyringStoreSet(provided: bool)

  function Apply(s: State, input: Input): Step {
    match input
    case PreferencesChanged(selected, useDetection) => OnPreferencesChange(s, selected, useDetection)
    case TokensChanged(tokens, ignored) => Step(OnTokensChange(s, tokens, ignored), [])
    case KeyringChanged(isUnlocked) => DeliverKeyringChange(s, isUnlocked, s.keyringSubscriptions)
    case OpenSet(isOpen) => Step(s.(isOpen := isOpen), [])
    case IntervalSet(interval) => SetInterval(s, interval)
    case NetworkSet(network) => Step(SetNetwork(s, network), [])
    case TokenListSet(list) => Step(SetTokenList(s, list), [])
    case KeyringStoreSet(provided) => Step(SetKeyringMemStore(s, provided), [])
  }

  lemma RestartPreservesWf(s: State)
    requires Wf(s)
    ensures Wf(RestartTokenDetection(s).state)
  {
    if IsActive(s) && HasAccount(s) {
      SetIntervalReplacesTimer(s, DefaultInterval);
    }
  }

  lemma ApplyPreservesWf(s: State, input: Input)
    requires Wf(s)
    ensures Wf(Apply(s, input).state)
  {
    match input
    case PreferencesChanged(selected, useDetection) =>
      RestartPreservesWf(s.(selectedAddress := selected, useTokenDetection := useDetection));
    case KeyringChanged(isUnlocked) =>
      if s.keyringSubscriptions > 0 {
        DeliverKeyringOnce(s, isUnlocked, s.keyringSubscriptions);
        RestartPreservesWf(s.(isUnlocked := Some(isUnlocked)));
      }
    case IntervalSet(interval) =>
      SetIntervalReplacesTimer(s, interval);
    case _ =>
  }

  function RunInputs(s: State, inputs: seq<Input>): State
    decreases |inputs|
  {
    if |inputs| == 0 then s else RunInputs(Apply(s, inputs[0]).state, inputs[1..])
  }

  /** From construction on, whatever happens, at most one interval timer is ever live. */
  lemma {:induction false} NeverTwoLiveTimers(config: Config, inputs: seq<Input>)
    ensures Wf(RunInputs(Create(config).state, inputs))
    ensures |RunInputs(Create(config).state, inputs).timers| <= 1
  {
    RunPreservesWf(Create(config).state, inputs);
    AtMostOneTimer(RunInputs(Create(config).state, inputs));
  }

  lemma {:induction false} RunPreservesWf(s: State, inputs: seq<Input>)
    requires Wf(s)
    ensures Wf(RunInputs(s, inputs))
    decreases |inputs|
  {
    if |inputs| > 0 {
      ApplyPreservesWf(s, inputs[0]);
      RunPreservesWf(Apply(s, inputs[0]).state, inputs[1..]);
    }
  }

  /**
   * Only the open flag and the keyring's lock state decide `isActive`: every
   * other input leaves it as it was.
   */
  lemma ActivityFollowsOpenAndUnlock(s: State, input: Input)
    ensures !input.OpenSet? && !input.KeyringChanged? ==> IsActive(Apply(s, input).state) == IsActive(s)
    ensures input.OpenSet? ==> (IsActive(Apply(s, input).state) <==> input.isOpen && s.isUnlocked == Some(true))
    ensures input.KeyringChanged? && s.keyringSubscriptions > 0 ==>
      (IsActive(Apply(s, input).state) <==> s.isOpen && input.isUnlocked)
  {
    match input
    case PreferencesChanged(selected, useDetection) =>
      var t := s.(selectedAddress := selected, useTokenDetection := useDetection);
      assert IsActive(t) == IsActive(s);
    case KeyringChanged(isUnlocked) =>
      if s.keyringSubscriptions > 0 {
        DeliverKeyringOnce(s, isUnlocked, s.keyringSubscriptions);
      }
    case _ =>
  }
}

=== FILE: text.dfy ===
/** Character-level helpers on strings: ASCII case folding and hex digits. */
module Text {

  /** ASCII lower-casing of one character; every other character is kept. */
  function LowerChar(c: char): char {
    if 'A' <= c <= 'Z' then (c as int + 32) as char else c
  }

  function Lower(s: string): string {
    seq(|s|, i requires 0 <= i < |s| => LowerChar(s[i]))
  }

  /** Two strings are equal once both are lower-cased. */
  predicate EqualsIgnoreCase(a: string, b: string) {
    Lower(a) == Lower(b)
  }

  /** Case-insensitive equality is an equivalence that preserves length. */
  lemma EqualsIgnoreCaseProperties(a: string, b: string, c: string)
    ensures EqualsIgnoreCase(a, a)
    ensures EqualsIgnoreCase(a, b) ==> EqualsIgnoreCase(b, a)
    ensures EqualsIgnoreCase(a, b) && EqualsIgnoreCase(b, c) ==> EqualsIgnoreCase(a, c)
    ensures EqualsIgnoreCase(a, b) ==> |a| == |b|
  {
    if EqualsIgnoreCase(a, b) {
      assert |Lower(a)| == |a| && |Lower(b)| == |b|;
    }
  }

  predicate IsHexDigit(c: char) {
    '0' <= c <= '9' || 'a' <= c <= 'f' || 'A' <= c <= 'F'
  }

  predicate AllHexDigits(s: string) {
    forall i :: 0 <= i < |s| ==> IsHexDigit(s[i])
  }

  predicate StartsWith(s: string, prefix: string) {
    prefix <= s
  }

  /** The lower-case hex digit of a value below sixteen. */
  function HexDigit(d: nat): (c: char)
    requires d < 16
    ensures IsHexDigit(c) && c != '-'
  {
    "0123456789abcdef"[d]
  }
}

=== FILE: token_detection.dfy ===
/**
 * One token-detection tick of the wallet's `DetectTokensController`, once the
 * controller has found itself active: pick the token-list entries the account
 * does not track or hide yet, split them into two chunks, ask the
 * balance-checker contract about each chunk in turn, and add every token whose
 * balance came back nonzero.
 *
 * The contract call is an oracle: a pure function from (account, token
 * addresses) to a failure, an empty answer, or a list of balances aligned with
 * the addresses. Whether each `addToken` promise resolves is a second oracle.
 * The tick is a trace of the calls it issues, in order.
 */
module TokenDetection {
  import opened Wrappers
  import opened Text

  type Address = string

  /** Detection is only wired for Ethereum mainnet. */
  const MainnetChainId: string := "0x1"

  /** The bound on the first balance query. */
  const ChunkSize: nat := 1000

  /** One key of the token list with the metadata stored under it. */
  datatype TokenEntry = TokenEntry(address: Address, symbol: string, decimals: nat)

  datatype TokenMeta = TokenMeta(symbol: string, decimals: nat)

  /**
   * What the balance-checker call comes back with: an error, a callback with
   * neither error nor result, or one optional balance per queried token.
   */
  datatype BalanceResponse = FetchFailed | NoResult | Balances(values: seq<Option<nat>>)

  type BalanceOracle = (Option<Address>, seq<Address>) -> BalanceResponse

  /** Whether the tokens controller's `addToken` promise for a call resolves (`true`) or rejects. */
  type AddOracle = Event -> bool

  /** The externally visible calls of a tick. */
  datatype Event =
    | BalanceQuery(account: Option<Address>, tokens: seq<Address>)
    | AddToken(address: Address, symbol: string, decimals: nat)

  /** What a tick reads: the chain, the token list (keys in enumeration order), the tracked and hidden addresses and the account. */
  datatype TickInput = TickInput(
    chainId: string,
    tokenList: seq<TokenEntry>,
    tracked: seq<Address>,
    hidden: seq<Address>,
    account: Option<Address>)

  function Min(a: int, b: int): int { if a <= b then a else b }

  function Max(a: int, b: int): int { if a >= b then a else b }

  // ---------------------------------------------------------------------------
  // The token list
  // ---------------------------------------------------------------------------

  function Keys(list: seq<TokenEntry>): seq<Address> {
    seq(|list|, i requires 0 <= i < |list| => list[i].address)
  }

  /** An object has each key once. */
  ghost predicate DistinctKeys(list: seq<TokenEntry>) {
    forall i, j :: 0 <= i < j < |list| ==> list[i].address != list[j].address
  }

  /** Property access `tokenList[key]`, which is case-sensitive. */
  function Lookup(list: seq<TokenEntry>, key: Address): (r: Option<TokenMeta>)
    ensures r.None? <==> forall e :: e in list ==> e.address != key
  {
    if |list| == 0 then None
    else if list[0].address == key then Some(TokenMeta(list[0].symbol, list[0].decimals))
    else Lookup(list[1..], key)
  }

  /** In a list with distinct keys, looking up an entry's key yields that entry's metadata. */
  lemma {:induction false} LookupFindsEntry(list: seq<TokenEntry>, e: TokenEntry)
    requires DistinctKeys(list)
    requires e in list
    ensures Lookup(list, e.address) == Some(TokenMeta(e.symbol, e.decimals))
  {
    if list[0] != e {
      assert list[0].address != e.address;
      assert DistinctKeys(list[1..]) by {
        forall i, j | 0 <= i < j < |list| - 1
          ensures list[1..][i].address != list[1..][j].address
        {
          assert list[1..][i] == list[i + 1] && list[1..][j] == list[j + 1];
        }
      }
      LookupFindsEntry(list[1..], e);
    }
  }

  // ---------------------------------------------------------------------------
  // Candidate selection
  // ---------------------------------------------------------------------------

  /** `xs.find(x => isEqualCaseInsensitive(x, key))`: the first case-insensitive match. */
  function FindMatch(xs: seq<Address>, key: Address): (r: Option<Address>)
    ensures r.Some? ==> r.value in xs && EqualsIgnoreCase(r.value, key)
    ensures r.Some? ==> exists i :: 0 <= i < |xs| && xs[i] == r.value
                          && forall j :: 0 <= j < i ==> !EqualsIgnoreCase(xs[j], key)
    ensures r.None? ==> forall x :: x in xs ==> !EqualsIgnoreCase(x, key)
  {
    if |xs| == 0 then None
    else if EqualsIgnoreCase(xs[0], key) then Some(xs[0])
    else FindMatch(xs[1..], key)
  }

  /** The truthiness of what `find` returns: a found empty string counts as not found. */
  predicate Listed(xs: seq<Address>, key: Address) {
    var m := FindMatch(xs, key);
    m.Some? && m.value != ""
  }

  /** A key is listed exactly when it is non-empty and some address equals it up to case. */
  lemma ListedIff(xs: seq<Address>, key: Address)
    ensures Listed(xs, key) <==> key != "" && exists x :: x in xs && EqualsIgnoreCase(x, key)
  {
    var m := FindMatch(xs, key);
    if m.Some? {
      EqualsIgnoreCaseProperties(m.value, key, key);
    }
  }

  /** A token-list key the tick asks about: neither tracked nor hidden. */
  predicate Selected(key: Address, tracked: seq<Address>, hidden: seq<Address>) {
    !Listed(tracked, key) && !Listed(hidden, key)
  }

  /** The candidate list, built by walking the token list in order. */
  function Candidates(list: seq<TokenEntry>, tracked: seq<Address>, hidden: seq<Address>): (c: seq<TokenEntry>)
    ensures forall e :: e in c <==> e in list && Selected(e.address, tracked, hidden)
    ensures |c| <= |list|
  {
    if |list| == 0 then []
    else
      var rest := Candidates(list[1..], tracked, hidden);
      if Selected(list[0].address, tracked, hidden) then [list[0]] + rest else rest
  }

  /** `idx` lists strictly increasing positions of `list` at which the elements of `c` occur. */
  ghost predicate Embedding<T>(c: seq<T>, list: seq<T>, idx: seq<nat>) {
    && |idx| == |c|
    && (forall i :: 0 <= i < |idx| ==> idx[i] < |list| && c[i] == list[idx[i]])
    && (forall i, j :: 0 <= i < j < |idx| ==> idx[i] < idx[j])
  }

  /** An embedding into a tail extends to the whole list, with or without the head. */
  lemma EmbeddingExtends<T>(c: seq<T>, list: seq<T>, idx: seq<nat>) returns (shifted: seq<nat>)
    requires |list| > 0 && Embedding(c, list[1..], idx)
    ensures Embedding(c, list, shifted)
    ensures Embedding([list[0]] + c, list, [0] + shifted)
  {
    shifted := seq(|idx|, i requires 0 <= i < |idx| => idx[i] + 1);
    forall i | 0 <= i < |shifted|
      ensures shifted[i] < |list| && c[i] == list[shifted[i]]
    {
      assert c[i] == list[1..][idx[i]];
    }
    var c' := [list[0]] + c;
    var idx' := [0] + shifted;
    forall i | 0 <= i < |idx'|
      ensures idx'[i] < |list| && c'[i] == list[idx'[i]]
    {
      if i > 0 {
        assert idx'[i] == shifted[i - 1] && c'[i] == c[i - 1];
      }
    }
  }

  /** The candidates occur in the token list at strictly increasing positions: the original order is kept. */
  lemma {:induction false} CandidatesKeepOrder(list: seq<TokenEntry>, tracked: seq<Address>, hidden: seq<Address>)
    returns (idx: seq<nat>)
    ensures Embedding(Candidates(list, tracked, hidden), list, idx)
  {
    if |list| == 0 {
      idx := [];
    } else {
      var rest := CandidatesKeepOrder(list[1..], tracked, hidden);
      var shifted := EmbeddingExtends(Candidates(list[1..], tracked, hidden), list, rest);
      if Selected(list[0].address, tracked, hidden) {
        idx := [0] + shifted;
      } else {
        idx := shifted;
      }
    }
  }

  /** No candidate with a non-empty address equals a tracked or hidden address up to case. */
  lemma CandidatesAvoidTrackedAndHidden(list: seq<TokenEntry>, tracked: seq<Address>, hidden: seq<Address>, e: TokenEntry, x: Address)
    requires e in Candidates(list, tracked, hidden)
    requires e.address != ""
    requires x in tracked || x in hidden
    ensures !EqualsIgnoreCase(x, e.address)
  {
    ListedIff(tracked, e.address);
    ListedIff(hidden, e.address);
  }

  /** Candidates of a list with distinct keys have distinct addresses. */
  lemma CandidatesDistinct(list: seq<TokenEntry>, tracked: seq<Address>, hidden: seq<Address>)
    requires DistinctKeys(list)
    ensures DistinctKeys(Candidates(list, tracked, hidden))
  {
    var idx := CandidatesKeepOrder(list, tracked, hidden);
  }

  // ---------------------------------------------------------------------------
  // Chunking
  // ---------------------------------------------------------------------------

  /** How `Array.prototype.slice` reads a bound: a negative one counts back from the end; both are clamped to the length. */
  function SliceBound(i: int, n: nat): (k: nat)
    ensures k <= n
    ensures 0 <= i <= n ==> k == i
    ensures i > n ==> k == n
    ensures i < 0 ==> k == Max(0, n + i)
  {
    if i < 0 then Max(0, n + i) else Min(i, n)
  }

  /** `s.slice(start, end)`: the elements from the clamped start up to the clamped end. */
  function JsSlice<T>(s: seq<T>, start: int, end: int): (r: seq<T>)
    ensures |r| == Max(0, SliceBound(end, |s|) - SliceBound(start, |s|))
    ensures forall k :: 0 <= k < |r| ==> r[k] == s[SliceBound(start, |s|) + k]
  {
    var from := SliceBound(start, |s|);
    var to := SliceBound(end, |s|);
    if from < to then s[from..to] else []
  }

  /** The two slices `c.slice(0, 1000)` and `c.slice(1000, c.length - 1)`. */
  function ChunksOf<T>(c: seq<T>): (chunks: seq<seq<T>>)
    ensures |chunks| == 2
    ensures chunks[0] == c[..Min(|c|, ChunkSize)]
    ensures chunks[1] == if |c| > ChunkSize + 1 then c[ChunkSize..|c| - 1] else []
    ensures |chunks[0]| == Min(|c|, ChunkSize)
    ensures |chunks[1]| == Max(0, |c| - ChunkSize - 1)
  {
    [JsSlice(c, 0, ChunkSize), JsSlice(c, ChunkSize, |c| - 1)]
  }

  /** The chunks, read back to back, are all the candidates when there are at most 1000, and all but the last otherwise. */
  lemma ChunksCoverAllButLast<T>(c: seq<T>)
    ensures var chunks := ChunksOf(c);
      chunks[0] + chunks[1] == if |c| <= ChunkSize then c else c[..|c| - 1]
  {
    var chunks := ChunksOf(c);
    if |c| > ChunkSize {
      assert chunks[0] + chunks[1] == c[..ChunkSize] + c[ChunkSize..|c| - 1];
    }
  }

  /** When there are more than 1000 distinct candidates, the final one is in neither chunk. */
  lemma LastCandidateInNoChunk<T>(c: seq<T>)
    requires |c| > ChunkSize
    requires forall i, j :: 0 <= i < j < |c| ==> c[i] != c[j]
    ensures var chunks := ChunksOf(c);
      c[|c| - 1] !in chunks[0] && c[|c| - 1] !in chunks[1]
  {
    var chunks := ChunksOf(c);
    ChunksCoverAllButLast(c);
    assert c[|c| - 1] !in c[..|c| - 1];
  }

  /** The second chunk has no upper bound: with more than 2001 candidates it exceeds 1000 addresses. */
  lemma SecondChunkUnbounded<T>(c: seq<T>)
    requires |c| > 2 * ChunkSize + 1
    ensures |ChunksOf(c)[1]| > ChunkSize
  {
  }

  // ---------------------------------------------------------------------------
  // Querying and adding
  // ---------------------------------------------------------------------------

  /** `balance && !balance.isZero()` for the balance at position `i`; a missing position is falsy. */
  predicate Funded(values: seq<Option<nat>>, i: nat) {
    i < |values| && values[i].Some? && values[i].value != 0
  }

  function AddEventOf(e: TokenEntry): Event {
    AddToken(e.address, e.symbol, e.decimals)
  }

  /** The `addToken` calls for one chunk: the entries whose aligned balance is funded, in chunk order. */
  function Additions(chunk: seq<TokenEntry>, values: seq<Option<nat>>): (adds: seq<Event>)
    ensures forall ev :: ev in adds ==> exists i :: 0 <= i < |chunk| && Funded(values, i) && ev == AddEventOf(chunk[i])
    ensures forall i :: 0 <= i < |chunk| && Funded(values, i) ==> AddEventOf(chunk[i]) in adds
    ensures |adds| <= |chunk|
  {
    if |chunk| == 0 then []
    else
      var last := |chunk| - 1;
      Additions(chunk[..last], values) + (if Funded(values, last) then [AddEventOf(chunk[last])] else [])
  }

  /** The `addToken` promise of every funded position of the chunk resolves, so the chunk's `Promise.all` resolves. */
  predicate AllResolve(chunk: seq<TokenEntry>, values: seq<Option<nat>>, added: AddOracle) {
    forall i :: 0 <= i < |chunk| && Funded(values, i) ==> added(AddEventOf(chunk[i]))
  }

  /** `Promise.all` over a chunk's `addToken` calls resolves exactly when every issued call resolves. */
  lemma AllResolveIff(chunk: seq<TokenEntry>, values: seq<Option<nat>>, added: AddOracle)
    ensures AllResolve(chunk, values, added) <==> forall ev :: ev in Additions(chunk, values) ==> added(ev)
  {
    if forall ev :: ev in Additions(chunk, values) ==> added(ev) {
      forall i | 0 <= i < |chunk| && Funded(values, i)
        ensures added(AddEventOf(chunk[i]))
      {
        assert AddEventOf(chunk[i]) in Additions(chunk, values);
      }
    }
  }

  /**
   * The balances a chunk's filter reads, or `None` when the chunk adds nothing
   * and the loop stops: the query failed (the tick returns), or it came back
   * without a result and a non-empty chunk indexes it (`result[index]` throws).
   * An empty chunk never indexes the result.
   */
  function ChunkValues(r: BalanceResponse, chunk: seq<TokenEntry>): Option<seq<Option<nat>>> {
    match r
    case FetchFailed => None
    case NoResult => if |chunk| == 0 then Some([]) else None
    case Balances(values) => Some(values)
  }

  /** The calls one chunk issues: its query, then, when the result could be read, all its `addToken` calls at once. */
  function ChunkEvents(account: Option<Address>, chunk: seq<TokenEntry>, oracle: BalanceOracle): seq<Event> {
    var tokens := Keys(chunk);
    var v := ChunkValues(oracle(account, tokens), chunk);
    [BalanceQuery(account, tokens)] + (if v.Some? then Additions(chunk, v.value) else [])
  }

  /** The loop goes on past this chunk: its result was read and every one of its `addToken` promises resolved. */
  predicate Proceeds(account: Option<Address>, chunk: seq<TokenEntry>, oracle: BalanceOracle, added: AddOracle) {
    var v := ChunkValues(oracle(account, Keys(chunk)), chunk);
    v.Some? && AllResolve(chunk, v.value, added)
  }

  /** The loop over the chunks: each chunk's calls, going on to the next chunk only while the previous one proceeds. */
  function RunChunks(account: Option<Address>, chunks: seq<seq<TokenEntry>>, oracle: BalanceOracle, added: AddOracle): (trace: seq<Event>)
    ensures |chunks| > 0 ==> |trace| > 0 && trace[0] == BalanceQuery(account, Keys(chunks[0]))
    ensures |chunks| > 0 && !Proceeds(account, chunks[0], oracle, added) ==> trace == ChunkEvents(account, chunks[0], oracle)
    decreases |chunks|
  {
    if |chunks| == 0 then []
    else
      ChunkEvents(account, chunks[0], oracle)
        + (if Proceeds(account, chunks[0], oracle, added) then RunChunks(account, chunks[1..], oracle, added) else [])
  }

  /**
   * The loop ends in an exception rather than returning: a missing result read
   * by a non-empty chunk, or a rejected `addToken`. A failed query is caught
   * and the tick returns normally.
   */
  function RunRejects(account: Option<Address>, chunks: seq<seq<TokenEntry>>, oracle: BalanceOracle, added: AddOracle): bool
    decreases |chunks|
  {
    if |chunks| == 0 then false
    else if oracle(account, Keys(chunks[0])).FetchFailed? then false
    else if !Proceeds(account, chunks[0], oracle, added) then true
    else RunRejects(account, chunks[1..], oracle, added)
  }

  /** The `detectNewTokens` body after its activity check: the calls it issues, in order. */
  function DetectNewTokens(input: TickInput, oracle: BalanceOracle, added: AddOracle): (trace: seq<Event>)
    ensures !Eligible(input) ==> trace == []
    ensures Eligible(input) ==> |trace| > 0 && trace[0] == BalanceQuery(input.account, Keys(TickChunks(input)[0]))
  {
    if !Eligible(input) then []
    else RunChunks(input.account, TickChunks(input), oracle, added)
  }

  /** `detectNewTokens` ends with a rejected promise instead of returning. */
  predicate DetectRejects(input: TickInput, oracle: BalanceOracle, added: AddOracle) {
    Eligible(input) && RunRejects(input.account, TickChunks(input), oracle, added)
  }

  // ---------------------------------------------------------------------------
  // What a run of chunks does
  // ---------------------------------------------------------------------------

  /** The index of the first chunk the loop does not go on from, or the number of chunks. */
  function FirstStop(account: Option<Address>, chunks: seq<seq<TokenEntry>>, oracle: BalanceOracle, added: AddOracle): (k: nat)
    ensures k <= |chunks|
    ensures forall j :: 0 <= j < k ==> Proceeds(account, chunks[j], oracle, added)
    ensures k < |chunks| ==> !Proceeds(account, chunks[k], oracle, added)
    decreases |chunks|
  {
    if |chunks| == 0 then 0
    else if !Proceeds(account, chunks[0], oracle, added) then 0
    else 1 + FirstStop(account, chunks[1..], oracle, added)
  }

  /** How many chunks get their query issued: all up to and including the first that stops the loop. */
  function Reached(account: Option<Address>, chunks: seq<seq<TokenEntry>>, oracle: BalanceOracle, added: AddOracle): nat {
    Min(FirstStop(account, chunks, oracle, added) + 1, |chunks|)
  }

  /** One step of the loop: the first chunk is reached, and the rest only when it proceeds. */
  lemma ReachedStep(account: Option<Address>, chunks: seq<seq<TokenEntry>>, oracle: BalanceOracle, added: AddOracle)
    requires |chunks| > 0
    ensures Proceeds(account, chunks[0], oracle, added) ==>
      Reached(account, chunks, oracle, added) == 1 + Reached(account, chunks[1..], oracle, added)
    ensures !Proceeds(account, chunks[0], oracle, added) ==> Reached(account, chunks, oracle, added) == 1
  {
    if Proceeds(account, chunks[0], oracle, added) {
      assert FirstStop(account, chunks, oracle, added) == 1 + FirstStop(account, chunks[1..], oracle, added);
    }
  }

  /** When the first chunk proceeds, the loop is its calls followed by the loop over the rest. */
  lemma RunChunksStep(account: Option<Address>, chunks: seq<seq<TokenEntry>>, oracle: BalanceOracle, added: AddOracle)
    requires |chunks| > 0 && Proceeds(account, chunks[0], oracle, added)
    ensures RunChunks(account, chunks, oracle, added)
         == ChunkEvents(account, chunks[0], oracle) + RunChunks(account, chunks[1..], oracle, added)
  {
  }

  /** The loop rejects exactly when it stops at a chunk whose query did not fail. */
  lemma {:induction false} RunRejectsIff(account: Option<Address>, chunks: seq<seq<TokenEntry>>, oracle: BalanceOracle, added: AddOracle)
    ensures var k := FirstStop(account, chunks, oracle, added);
      RunRejects(account, chunks, oracle, added) <==> k < |chunks| && !oracle(account, Keys(chunks[k])).FetchFailed?
    decreases |chunks|
  {
    if |chunks| > 0 && Proceeds(account, chunks[0], oracle, added) {
      RunRejectsIff(account, chunks[1..], oracle, added);
      var k := FirstStop(account, chunks[1..], oracle, added);
      assert FirstStop(account, chunks, oracle, added) == k + 1;
      if k < |chunks| - 1 {
        assert chunks[1..][k] == chunks[k + 1];
      }
    }
  }

  /** The filter found the balance at position `i` of the chunk funded. */
  predicate FundedIn(oracle: BalanceOracle, account: Option<Address>, chunk: seq<TokenEntry>, i: nat) {
    var v := ChunkValues(oracle(account, Keys(chunk)), chunk);
    v.Some? && Funded(v.value, i)
  }

  function Queries(trace: seq<Event>): (qs: seq<Event>)
    ensures forall ev :: ev in qs <==> ev in trace && ev.BalanceQuery?
  {
    if |trace| == 0 then []
    else (if trace[0].BalanceQuery? then [trace[0]] else []) + Queries(trace[1..])
  }

  lemma {:induction false} QueriesAppend(a: seq<Event>, b: seq<Event>)
    ensures Queries(a + b) == Queries(a) + Queries(b)
  {
    if |a| == 0 {
      assert a + b == b;
    } else {
      assert (a + b)[0] == a[0];
      assert (a + b)[1..] == a[1..] + b;
      QueriesAppend(a[1..], b);
    }
  }

  lemma {:induction false} QueriesOfAdditionsOnly(trace: seq<Event>)
    requires forall ev :: ev in trace ==> ev.AddToken?
    ensures Queries(trace) == []
  {
    if |trace| > 0 {
      assert trace[0] in trace;
      assert forall ev :: ev in trace[1..] ==> ev in trace;
      QueriesOfAdditionsOnly(trace[1..]);
    }
  }

  /** A chunk issues exactly one query. */
  lemma QueriesOfChunkEvents(account: Option<Address>, chunk: seq<TokenEntry>, oracle: BalanceOracle)
    ensures Queries(ChunkEvents(account, chunk, oracle)) == [BalanceQuery(account, Keys(chunk))]
  {
    var q := BalanceQuery(account, Keys(chunk));
    var v := ChunkValues(oracle(account, Keys(chunk)), chunk);
    var adds := if v.Some? then Additions(chunk, v.value) else [];
    QueriesAppend([q], adds);
    QueriesOfAdditionsOnly(adds);
    assert Queries([q]) == [q];
  }

  /** The queries issued for the first `n` chunks, in chunk order. */
  function QueryPlan(account: Option<Address>, chunks: seq<seq<TokenEntry>>, n: nat): seq<Event>
    requires n <= |chunks|
  {
    seq(n, j requires 0 <= j < n => BalanceQuery(account, Keys(chunks[j])))
  }

  /** The loop queries every chunk in order up to and including the first one it stops at, and nothing after it. */
  lemma {:induction false} RunChunksQueries(account: Option<Address>, chunks: seq<seq<TokenEntry>>, oracle: BalanceOracle, added: AddOracle)
    ensures Queries(RunChunks(account, chunks, oracle, added)) == QueryPlan(account, chunks, Reached(account, chunks, oracle, added))
    decreases |chunks|
  {
    if |chunks| > 0 {
      var q := BalanceQuery(account, Keys(chunks[0]));
      var head := ChunkEvents(account, chunks[0], oracle);
      QueriesOfChunkEvents(account, chunks[0], oracle);
      ReachedStep(account, chunks, oracle, added);
      if Proceeds(account, chunks[0], oracle, added) {
        var rest := RunChunks(account, chunks[1..], oracle, added);
        RunChunksStep(account, chunks, oracle, added);
        QueriesAppend(head, rest);
        RunChunksQueries(account, chunks[1..], oracle, added);
        QueryPlanCons(account, chunks, Reached(account, chunks[1..], oracle, added));
      } else {
        assert QueryPlan(account, chunks, 1) == [q];
      }
    }
  }

  /** The plan for `n + 1` chunks is the first chunk's query followed by the plan for `n` of the rest. */
  lemma QueryPlanCons(account: Option<Address>, chunks: seq<seq<TokenEntry>>, n: nat)
    requires n < |chunks|
    ensures QueryPlan(account, chunks, n + 1) == [BalanceQuery(account, Keys(chunks[0]))] + QueryPlan(account, chunks[1..], n)
  {
    assert forall j :: 1 <= j <= n ==> chunks[1..][j - 1] == chunks[j];
  }

  /**
   * A loop adds a token exactly when it sits at a funded position of a chunk
   * whose query was issued; at the chunk the loop stops at, that takes a result
   * that could be read, so a failed query adds nothing while a rejected
   * `addToken` comes after all of its chunk's calls.
   */
  lemma RunChunksAdditions(account: Option<Address>, chunks: seq<seq<TokenEntry>>, oracle: BalanceOracle, added: AddOracle, ev: Event)
    ensures (ev in RunChunks(account, chunks, oracle, added) && ev.AddToken?)
        <==> exists j, i :: 0 <= j < Reached(account, chunks, oracle, added) && 0 <= i < |chunks[j]|
                           && FundedIn(oracle, account, chunks[j], i) && ev == AddEventOf(chunks[j][i])
  {
    if ev in RunChunks(account, chunks, oracle, added) && ev.AddToken? {
      AddedTokensAreFunded(account, chunks, oracle, added, ev);
    }
    if exists j, i :: 0 <= j < Reached(account, chunks, oracle, added) && 0 <= i < |chunks[j]|
                      && FundedIn(oracle, account, chunks[j], i) && ev == AddEventOf(chunks[j][i]) {
      var j, i :| 0 <= j < Reached(account, chunks, oracle, added) && 0 <= i < |chunks[j]|
                  && FundedIn(oracle, account, chunks[j], i) && ev == AddEventOf(chunks[j][i]);
      FundedTokensAreAdded(account, chunks, oracle, added, j, i);
    }
  }

  /** Every token a loop adds sits at a funded position of a chunk whose query was issued. */
  lemma {:induction false} AddedTokensAreFunded(account: Option<Address>, chunks: seq<seq<TokenEntry>>, oracle: BalanceOracle, added: AddOracle, ev: Event)
    requires ev in RunChunks(account, chunks, oracle, added) && ev.AddToken?
    ensures exists j, i :: 0 <= j < Reached(account, chunks, oracle, added) && 0 <= i < |chunks[j]|
                           && FundedIn(oracle, account, chunks[j], i) && ev == AddEventOf(chunks[j][i])
    decreases |chunks|
  {
    var tokens := Keys(chunks[0]);
    var v := ChunkValues(oracle(account, tokens), chunks[0]);
    var head := ChunkEvents(account, chunks[0], oracle);
    if ev in head {
      assert ev != BalanceQuery(account, tokens);
      assert v.Some? && ev in Additions(chunks[0], v.value);
      var i :| 0 <= i < |chunks[0]| && Funded(v.value, i) && ev == AddEventOf(chunks[0][i]);
      assert FundedIn(oracle, account, chunks[0], i);
    } else {
      var rest := RunChunks(account, chunks[1..], oracle, added);
      assert Proceeds(account, chunks[0], oracle, added);
      RunChunksStep(account, chunks, oracle, added);
      assert ev in rest;
      AddedTokensAreFunded(account, chunks[1..], oracle, added, ev);
      ReachedStep(account, chunks, oracle, added);
      var j, i :| 0 <= j < Reached(account, chunks[1..], oracle, added) && 0 <= i < |chunks[1..][j]|
                  && FundedIn(oracle, account, chunks[1..][j], i) && ev == AddEventOf(chunks[1..][j][i]);
      assert chunks[1..][j] == chunks[j + 1];
      assert FundedIn(oracle, account, chunks[j + 1], i) && ev == AddEventOf(chunks[j + 1][i]);
    }
  }

  /** Every funded position of a chunk whose query was issued is added by the loop. */
  lemma {:induction false} FundedTokensAreAdded(account: Option<Address>, chunks: seq<seq<TokenEntry>>, oracle: BalanceOracle, added: AddOracle, j: nat, i: nat)
    requires j < Reached(account, chunks, oracle, added) && i < |chunks[j]| && FundedIn(oracle, account, chunks[j], i)
    ensures AddEventOf(chunks[j][i]) in RunChunks(account, chunks, oracle, added)
    decreases |chunks|
  {
    var v := ChunkValues(oracle(account, Keys(chunks[0])), chunks[0]);
    var head := ChunkEvents(account, chunks[0], oracle);
    ReachedStep(account, chunks, oracle, added);
    if j == 0 {
      assert AddEventOf(chunks[0][i]) in Additions(chunks[0], v.value);
      assert AddEventOf(chunks[0][i]) in head;
    } else {
      RunChunksStep(account, chunks, oracle, added);
      assert chunks[1..][j - 1] == chunks[j];
      FundedTokensAreAdded(account, chunks[1..], oracle, added, j - 1, i);
    }
  }

  // ---------------------------------------------------------------------------
  // The tick
  // ---------------------------------------------------------------------------

  /** The two chunks a tick queries. */
  function TickChunks(input: TickInput): seq<seq<TokenEntry>> {
    ChunksOf(Candidates(input.tokenList, input.tracked, input.hidden))
  }

  /** The tick runs on mainnet with a non-empty token list. */
  predicate Eligible(input: TickInput) {
    input.chainId == MainnetChainId && |input.tokenList| > 0
  }

  /**
   * The tick queries chunk 2 exactly when chunk 1 proceeds (its result was read
   * and all its `addToken` promises resolved), even when a chunk is empty.
   */
  lemma TickQueriesBothChunks(input: TickInput, oracle: BalanceOracle, added: AddOracle)
    requires Eligible(input)
    ensures var chunks := TickChunks(input);
      var q0 := BalanceQuery(input.account, Keys(chunks[0]));
      var q1 := BalanceQuery(input.account, Keys(chunks[1]));
      Queries(DetectNewTokens(input, oracle, added))
        == if Proceeds(input.account, chunks[0], oracle, added) then [q0, q1] else [q0]
  {
    var chunks := TickChunks(input);
    RunChunksQueries(input.account, chunks, oracle, added);
    ReachedStep(input.account, chunks, oracle, added);
    if Proceeds(input.account, chunks[0], oracle, added) {
      ReachedStep(input.account, chunks[1..], oracle, added);
      assert Reached(input.account, chunks, oracle, added) == 2;
      assert chunks[1..][0] == chunks[1];
    }
  }

  /**
   * A failed first query ends the tick with nothing added and no rejection; a
   * failed second query keeps what the first chunk added.
   */
  lemma TickStopsAtFailedQuery(input: TickInput, oracle: BalanceOracle, added: AddOracle)
    requires Eligible(input)
    ensures var chunks := TickChunks(input);
      var q0 := BalanceQuery(input.account, Keys(chunks[0]));
      var q1 := BalanceQuery(input.account, Keys(chunks[1]));
      var r0 := oracle(input.account, Keys(chunks[0]));
      && (r0.FetchFailed? ==> DetectNewTokens(input, oracle, added) == [q0] && !DetectRejects(input, oracle, added))
      && (r0.Balances? && AllResolve(chunks[0], r0.values, added)
          && oracle(input.account, Keys(chunks[1])).FetchFailed? ==>
            DetectNewTokens(input, oracle, added) == [q0] + Additions(chunks[0], r0.values) + [q1]
            && !DetectRejects(input, oracle, added))
  {
    var chunks := TickChunks(input);
    var r0 := oracle(input.account, Keys(chunks[0]));
    if r0.Balances? && AllResolve(chunks[0], r0.values, added) {
      assert chunks[1..][0] == chunks[1];
      var q1 := BalanceQuery(input.account, Keys(chunks[1]));
      if oracle(input.account, Keys(chunks[1])).FetchFailed? {
        assert RunChunks(input.account, chunks[1..], oracle, added) == [q1];
        assert !RunRejects(input.account, chunks[1..], oracle, added);
      }
    }
  }

  /**
   * A result-less answer for a non-empty first chunk, or a rejected `addToken`
   * of the first chunk, ends the tick with a rejection before chunk 2 is
   * queried; in the second case every `addToken` of chunk 1 was still issued.
   */
  lemma TickStopsAtRejection(input: TickInput, oracle: BalanceOracle, added: AddOracle)
    requires Eligible(input)
    ensures var chunks := TickChunks(input);
      var q0 := BalanceQuery(input.account, Keys(chunks[0]));
      var r0 := oracle(input.account, Keys(chunks[0]));
      && (r0.NoResult? && |chunks[0]| > 0 ==>
            DetectNewTokens(input, oracle, added) == [q0] && DetectRejects(input, oracle, added))
      && (r0.Balances? && !AllResolve(chunks[0], r0.values, added) ==>
            DetectNewTokens(input, oracle, added) == [q0] + Additions(chunks[0], r0.values)
            && DetectRejects(input, oracle, added))
  {
  }

  /**
   * A tick adds a token exactly when it is a candidate at a funded position of
   * a chunk whose query was issued; the added symbol and decimals are the token
   * list's.
   */
  lemma TickAddsExactlyFunded(input: TickInput, oracle: BalanceOracle, added: AddOracle, ev: Event)
    requires Eligible(input)
    ensures var chunks := TickChunks(input);
      (ev in DetectNewTokens(input, oracle, added) && ev.AddToken?)
        <==> exists k, i :: 0 <= k < Reached(input.account, chunks, oracle, added) && 0 <= i < |chunks[k]|
                           && FundedIn(oracle, input.account, chunks[k], i) && ev == AddEventOf(chunks[k][i])
  {
    RunChunksAdditions(input.account, TickChunks(input), oracle, added, ev);
  }

  /** Every chunk element is a candidate. */
  lemma ChunkElementIsCandidate(input: TickInput, k: nat, i: nat)
    requires k < 2 && i < |TickChunks(input)[k]|
    ensures TickChunks(input)[k][i] in Candidates(input.tokenList, input.tracked, input.hidden)
  {
    var c := Candidates(input.tokenList, input.tracked, input.hidden);
    var chunks := ChunksOf(c);
    assert TickChunks(input) == chunks;
    if k == 0 {
      assert chunks[0] == c[..Min(|c|, ChunkSize)];
      assert chunks[0][i] == c[i];
    } else {
      assert chunks[1] == c[ChunkSize..|c| - 1];
      assert chunks[1][i] == c[ChunkSize + i];
    }
  }

  /**
   * Every token a tick adds is a selected key of the token list, added with the
   * symbol and decimals stored under that key.
   */
  lemma TickAddsListedTokens(input: TickInput, oracle: BalanceOracle, added: AddOracle, a: Address, symbol: string, decimals: nat)
    requires DistinctKeys(input.tokenList)
    requires AddToken(a, symbol, decimals) in DetectNewTokens(input, oracle, added)
    ensures Selected(a, input.tracked, input.hidden)
    ensures Lookup(input.tokenList, a) == Some(TokenMeta(symbol, decimals))
  {
    var ev := AddToken(a, symbol, decimals);
    TickAddsExactlyFunded(input, oracle, added, ev);
    var chunks := TickChunks(input);
    var k, i :| 0 <= k < Reached(input.account, chunks, oracle, added) && 0 <= i < |chunks[k]|
                && FundedIn(oracle, input.account, chunks[k], i) && ev == AddEventOf(chunks[k][i]);
    ChunkElementIsCandidate(input, k, i);
    LookupFindsEntry(input.tokenList, chunks[k][i]);
  }

  /** With more than 1000 candidates with distinct keys, neither chunk's address list holds the last candidate's. */
  lemma LastKeyInNoChunk(c: seq<TokenEntry>)
    requires |c| > ChunkSize && DistinctKeys(c)
    ensures forall j :: 0 <= j < 2 ==> c[|c| - 1].address !in Keys(ChunksOf(c)[j])
  {
    var last := c[|c| - 1];
    forall j | 0 <= j < 2
      ensures last.address !in Keys(ChunksOf(c)[j])
    {
      var chunk := ChunksOf(c)[j];
      forall i | 0 <= i < |chunk|
        ensures Keys(chunk)[i] != last.address
      {
        var p := if j == 0 then i else ChunkSize + i;
        assert p < |c| - 1 && chunk[i] == c[p];
      }
    }
  }

  /** Every query of a loop is the query of one of its chunks. */
  lemma QueryIsOfSomeChunk(account: Option<Address>, chunks: seq<seq<TokenEntry>>, oracle: BalanceOracle, added: AddOracle, q: Event)
    requires q in RunChunks(account, chunks, oracle, added) && q.BalanceQuery?
    ensures exists j :: 0 <= j < |chunks| && q == BalanceQuery(account, Keys(chunks[j]))
  {
    RunChunksQueries(account, chunks, oracle, added);
    assert q in QueryPlan(account, chunks, Reached(account, chunks, oracle, added));
  }

  /** With more than 1000 candidates and distinct keys, no query of the tick mentions the last candidate. */
  lemma TickNeverQueriesLastCandidate(input: TickInput, oracle: BalanceOracle, added: AddOracle, q: Event)
    requires DistinctKeys(input.tokenList)
    requires |Candidates(input.tokenList, input.tracked, input.hidden)| > ChunkSize
    requires q in DetectNewTokens(input, oracle, added) && q.BalanceQuery?
    ensures Candidates(input.tokenList, input.tracked, input.hidden)[|Candidates(input.tokenList, input.tracked, input.hidden)| - 1].address !in q.tokens
  {
    var c := Candidates(input.tokenList, input.tracked, input.hidden);
    var chunks := ChunksOf(c);
    CandidatesDistinct(input.tokenList, input.tracked, input.hidden);
    LastKeyInNoChunk(c);
    assert Eligible(input);
    assert DetectNewTokens(input, oracle, added) == RunChunks(input.account, chunks, oracle, added);
    QueryIsOfSomeChunk(input.account, chunks, oracle, added, q);
    var j :| 0 <= j < |chunks| && q == BalanceQuery(input.account, Keys(chunks[j]));
    assert j < 2 && q.tokens == Keys(ChunksOf(c)[j]);
  }
}

=== FILE: tx_params.dfy ===
/**
 * The transaction-parameter utilities the transaction controller applies to a
 * proposed transaction before it is queued: `normalizeTxParams`,
 * `validateFrom`, `validateRecipient` and `validateTxParams`.
 *
 * A parameter set is a map from key to JavaScript value; an absent key is
 * `undefined`. A thrown `Error` is a `Failure` carrying a `TxError`, whose
 * `Message` is the error text. Behaviour follows what the unit tests of
 * test/unit/app/controllers/transactions/tx-utils-test.js fix; where they are
 * silent the model takes the smallest rule that meets them (see README.md).
 */
module TxParams {
  import opened Wrappers
  import opened Text

  /** The values a parameter can hold. An array is kept as its elements' string forms. */
  datatype JsValue = Null | Str(s: string) | Arr(items: seq<string>) | Obj

  type Params = map<string, JsValue>

  /** The keys `normalizeTxParams` keeps; everything else, `chainId` included, is dropped. */
  const Recognised: set<string> := {"from", "to", "value", "data", "gas", "gasPrice"}

  predicate Truthy(v: JsValue) {
    match v
    case Null => false
    case Str(s) => s != ""
    case _ => true
  }

  /** `p[key]` is present and truthy. */
  predicate FieldTruthy(p: Params, key: string) {
    key in p && Truthy(p[key])
  }

  function Field(p: Params, key: string): Option<JsValue> {
    if key in p then Some(p[key]) else None
  }

  /** `items.join(",")`, how an array turns into a string. */
  function Join(items: seq<string>): string {
    if |items| == 0 then ""
    else if |items| == 1 then items[0]
    else items[0] + "," + Join(items[1..])
  }

  /** How a template literal `${v}` shows a value; an absent one shows as `undefined`. */
  function Show(v: Option<JsValue>): string {
    match v
    case None => "undefined"
    case Some(Null) => "null"
    case Some(Str(s)) => s
    case Some(Arr(items)) => Join(items)
    case Some(Obj) => "[object Object]"
  }

  // ---------------------------------------------------------------------------
  // Normalisation
  // ---------------------------------------------------------------------------

  /** `addHexPrefix`: prefix a string with `0x` unless it already has it; leave other values alone. */
  function AddHexPrefix(v: JsValue): (r: JsValue)
    ensures v.Str? ==> r.Str? && StartsWith(r.s, "0x") && |r.s| >= |v.s| && r.s[|r.s| - |v.s|..] == v.s
    ensures v.Str? && StartsWith(v.s, "0x") ==> r == v
    ensures v.Str? && !StartsWith(v.s, "0x") ==> r == Str("0x" + v.s)
    ensures !v.Str? ==> r == v
  {
    match v
    case Str(s) => if StartsWith(s, "0x") then v else Str("0x" + s)
    case _ => v
  }

  /** `normalizeTxParams`: keep the truthy recognised fields, each hex-prefixed. */
  function NormalizeTxParams(p: Params): (n: Params)
    ensures n.Keys <= Recognised && n.Keys <= p.Keys
    ensures "chainId" !in n
    ensures forall k :: k in Recognised && FieldTruthy(p, k) ==> k in n
    ensures forall k :: k in n ==> Truthy(p[k]) && n[k] == AddHexPrefix(p[k])
    ensures forall k :: k in n && n[k].Str? ==> StartsWith(n[k].s, "0x")
  {
    map k | k in p && k in Recognised && Truthy(p[k]) :: AddHexPrefix(p[k])
  }

  /** A parameter set normalisation leaves as it is. */
  ghost predicate IsNormalized(p: Params) {
    forall k :: k in p ==> k in Recognised && Truthy(p[k]) && AddHexPrefix(p[k]) == p[k]
  }

  lemma NormalizeYieldsNormalized(p: Params)
    ensures IsNormalized(NormalizeTxParams(p))
  {
    var n := NormalizeTxParams(p);
    forall k | k in n
      ensures k in Recognised && Truthy(n[k]) && AddHexPrefix(n[k]) == n[k]
    {
      if n[k].Str? {
        assert |n[k].s| >= 2;
      }
    }
  }

  lemma NormalizeKeepsNormalized(p: Params)
    requires IsNormalized(p)
    ensures NormalizeTxParams(p) == p
  {
    var n := NormalizeTxParams(p);
    assert n.Keys == p.Keys;
  }

  /** Normalising twice is normalising once. */
  lemma NormalizeIdempotent(p: Params)
    ensures NormalizeTxParams(NormalizeTxParams(p)) == NormalizeTxParams(p)
  {
    NormalizeYieldsNormalized(p);
    NormalizeKeepsNormalized(NormalizeTxParams(p));
  }

  /** The parameter set of the normalisation test. */
  function NormalizeTestInput(): Params {
    map[
      "chainId" := Str("0x1"),
      "from" := Str("a7df1beDBF813f57096dF77FCd515f0B3900e402"),
      "to" := Null,
      "data" := Str("68656c6c6f20776f726c64"),
      "random" := Str("hello world")]
  }

  /** The normalisation test: `chainId`, a null `to` and `random` go; `from` and `data` gain `0x`. */
  lemma NormalizeTestCase()
    ensures var n := NormalizeTxParams(NormalizeTestInput());
      && !FieldTruthy(n, "chainId")
      && !FieldTruthy(n, "to")
      && "from" in n && n["from"].Str? && n["from"].s[..2] == "0x"
      && "data" in n && n["data"].Str? && n["data"].s[..2] == "0x"
      && "random" !in n
  {
    var p := NormalizeTestInput();
    var n := NormalizeTxParams(p);
    assert "from" in Recognised && FieldTruthy(p, "from");
    assert "data" in Recognised && FieldTruthy(p, "data");
    assert !Truthy(p["to"]);
  }

  /** The second half of the normalisation test: a set `to` gains `0x`. */
  lemma NormalizeTestCaseWithRecipient()
    ensures var n := NormalizeTxParams(NormalizeTestInput()["to" := Str("a7df1beDBF813f57096dF77FCd515f0B3900e402")]);
      "to" in n && n["to"].Str? && n["to"].s[..2] == "0x"
  {
    var p := NormalizeTestInput()["to" := Str("a7df1beDBF813f57096dF77FCd515f0B3900e402")];
    assert "to" in Recognised && FieldTruthy(p, "to");
  }

  // ---------------------------------------------------------------------------
  // Validation
  // ---------------------------------------------------------------------------

  /** The errors validation throws. */
  datatype TxError =
    | FromNotString(shown: string)
    | FromNotAddress
    | InvalidRecipient
    | NegativeValue(shown: string)

  function Message(e: TxError): string {
    match e
    case FromNotString(shown) => "Invalid from address " + shown + " not a string"
    case FromNotAddress => "Invalid from address"
    case InvalidRecipient => "Invalid recipient address"
    case NegativeValue(shown) => "Invalid transaction value " + shown
  }

  /** An account address: `0x` followed by forty hex digits of either case. */
  predicate IsAddress(s: string) {
    |s| == 42 && StartsWith(s, "0x") && forall i :: 2 <= i < |s| ==> IsHexDigit(s[i])
  }

  /** `validateFrom`: `from` must be a string, and that string an address. */
  function ValidateFrom(p: Params): (r: Result<Params, TxError>)
    ensures r.Success? <==> "from" in p && p["from"].Str? && IsAddress(p["from"].s)
    ensures r.Success? ==> r.value == p
    ensures !("from" in p && p["from"].Str?) ==> r == Failure(FromNotString(Show(Field(p, "from"))))
    ensures "from" in p && p["from"].Str? && !IsAddress(p["from"].s) ==> r == Failure(FromNotAddress)
  {
    if !("from" in p && p["from"].Str?) then Failure(FromNotString(Show(Field(p, "from"))))
    else if !IsAddress(p["from"].s) then Failure(FromNotAddress)
    else Success(p)
  }

  lemma PrefixedHexIsAddress(hex: string)
    requires |hex| == 40 && AllHexDigits(hex)
    ensures IsAddress("0x" + hex)
  {
    var a := "0x" + hex;
    assert forall i :: 2 <= i < |a| ==> a[i] == hex[i - 2];
  }

  /** Any `0x` plus forty hex digits passes `validateFrom`, whatever else the set holds. */
  lemma ValidateFromAcceptsAddresses(p: Params, hex: string)
    requires |hex| == 40 && AllHexDigits(hex)
    ensures ValidateFrom(p["from" := Str("0x" + hex)]) == Success(p["from" := Str("0x" + hex)])
  {
    PrefixedHexIsAddress(hex);
  }

  /** After normalisation, forty hex digits without the prefix pass `validateFrom` too. */
  lemma NormalizedFromAccepted(p: Params, hex: string)
    requires |hex| == 40 && AllHexDigits(hex)
    requires Field(p, "from") == Some(Str(hex))
    ensures ValidateFrom(NormalizeTxParams(p)).Success?
  {
    var n := NormalizeTxParams(p);
    assert !StartsWith(hex, "0x") by {
      assert IsHexDigit(hex[1]);
    }
    assert AddHexPrefix(Str(hex)) == Str("0x" + hex);
    assert "from" in Recognised && FieldTruthy(p, "from");
    assert n["from"] == Str("0x" + hex);
    PrefixedHexIsAddress(hex);
  }

  /** The `validateFrom` test: a missing `from` is not a string. */
  lemma ValidateFromMissingTestCase()
    ensures Message(ValidateFrom(map[]).error) == "Invalid from address undefined not a string"
  {
    var missing: Params := map[];
    assert ValidateFrom(missing) == Failure(FromNotString("undefined"));
  }

  /** The `validateFrom` test: an array `from` is not a string; it shows as its (empty) join. */
  lemma ValidateFromArrayTestCase()
    ensures Message(ValidateFrom(map["from" := Arr([])]).error) == "Invalid from address  not a string"
  {
    var arr: Params := map["from" := Arr([])];
    assert Show(Field(arr, "from")) == "";
    assert ValidateFrom(arr) == Failure(FromNotString(""));
    assert "Invalid from address " + "" + " not a string" == "Invalid from address  not a string";
  }

  /** The `validateFrom` test: an object `from` is not a string. */
  lemma ValidateFromObjectTestCase()
    ensures Message(ValidateFrom(map["from" := Obj]).error) == "Invalid from address [object Object] not a string"
  {
    var obj: Params := map["from" := Obj];
    assert Show(Field(obj, "from")) == "[object Object]";
    assert ValidateFrom(obj) == Failure(FromNotString("[object Object]"));
    assert "Invalid from address " + "[object Object]" == "Invalid from address [object Object]";
    assert "Invalid from address [object Object]" + " not a string" == "Invalid from address [object Object] not a string";
  }

  /** The `validateFrom` test: a sentence is a string but not an address. */
  lemma ValidateFromSentenceTestCase()
    ensures ValidateFrom(map["from" := Str("im going to fail")]) == Failure(FromNotAddress)
  {
    var sentence: Params := map["from" := Str("im going to fail")];
    assert sentence["from"] == Str("im going to fail");
    assert !IsAddress("im going to fail");
  }

  /** The sender address the unit tests use. */
  const TestSender: string := "0x1678a085c290ebd122dc42cba69373b5953b831d"

  lemma TestSenderIsAddress()
    ensures IsAddress(TestSender)
  {
  }

  /** The `validateFrom` test's passing case. */
  lemma ValidateFromAcceptanceTestCase()
    ensures ValidateFrom(map["from" := Str(TestSender)]).Success?
  {
    TestSenderIsAddress();
  }

  /** `validateRecipient`: a `0x` recipient means contract creation when there is data, and is an error otherwise. */
  function ValidateRecipient(p: Params): (r: Result<Params, TxError>)
    ensures r.Failure? <==> Field(p, "to") == Some(Str("0x")) && !FieldTruthy(p, "data")
    ensures r.Failure? ==> r.error == InvalidRecipient
    ensures r.Success? ==> ("to" in r.value <==> "to" in p && p["to"] != Str("0x"))
    ensures r.Success? ==> forall k :: k != "to" ==> Field(r.value, k) == Field(p, k)
    ensures r.Success? && "to" in r.value ==> r.value["to"] == p["to"]
  {
    if Field(p, "to") == Some(Str("0x")) then
      if FieldTruthy(p, "data") then Success(p - {"to"}) else Failure(InvalidRecipient)
    else
      Success(p)
  }

  /** The `validateRecipient` tests: `0x` with contract data loses its `to` key, `0x` without data fails. */
  lemma ValidateRecipientTestCases()
    ensures var from := Str(TestSender);
      && ValidateRecipient(map["from" := from, "to" := Str("0x"), "data" := Str("bytecode")])
           == Success(map["from" := from, "data" := Str("bytecode")])
      && Message(ValidateRecipient(map["from" := from, "to" := Str("0x")]).error) == "Invalid recipient address"
  {
    var from := Str(TestSender);
    assert map["from" := from, "to" := Str("0x"), "data" := Str("bytecode")] - {"to"}
        == map["from" := from, "data" := Str("bytecode")];
  }

  /** A value is negative when its string form carries a minus sign. */
  predicate IsNegative(v: JsValue) {
    '-' in Show(Some(v))
  }

  /** The value check of `validateTxParams`: an absent value passes, a negative one fails. */
  function ValidateValue(p: Params): (r: Result<Params, TxError>)
    ensures r.Failure? <==> "value" in p && IsNegative(p["value"])
    ensures r.Failure? ==> r.error == NegativeValue(Show(Field(p, "value")))
    ensures r.Success? ==> r.value == p
  {
    if "value" in p && IsNegative(p["value"]) then Failure(NegativeValue(Show(Field(p, "value"))))
    else Success(p)
  }

  /** `validateTxParams`: sender, then recipient, then value; the first failure wins. */
  function ValidateTxParams(p: Params): (r: Result<Params, TxError>)
    ensures r.Success? <==>
      && ValidateFrom(p).Success?
      && ValidateRecipient(p).Success?
      && !("value" in p && IsNegative(p["value"]))
    ensures ValidateFrom(p).Failure? ==> r == Failure(ValidateFrom(p).error)
    ensures r.Success? ==> r == ValidateRecipient(p)
  {
    var _ :- ValidateFrom(p);
    var q :- ValidateRecipient(p);
    ValidateValue(q)
  }

  // ---------------------------------------------------------------------------
  // Hex quantities
  // ---------------------------------------------------------------------------

  /** The lower-case hex digits of a natural number, most significant first. */
  function HexDigits(m: nat): (r: string)
    ensures |r| >= 1 && AllHexDigits(r) && '-' !in r
    decreases m
  {
    if m < 16 then [HexDigit(m)] else HexDigits(m / 16) + [HexDigit(m % 16)]
  }

  /** A signed integer as a hex quantity string: `0x01` style, `-0x01` for negatives. */
  function EncodeQuantity(n: int): string {
    (if n < 0 then "-" else "") + "0x" + HexDigits(if n < 0 then -n else n)
  }

  /** The value check rejects an encoded quantity exactly when it is negative. */
  lemma ValueCheckRejectsExactlyNegatives(p: Params, n: int)
    ensures ValidateValue(p["value" := Str(EncodeQuantity(n))]).Failure? <==> n < 0
  {
    var digits := HexDigits(if n < 0 then -n else n);
    if n >= 0 {
      assert EncodeQuantity(n) == "0x" + digits;
      assert forall i :: 0 <= i < |"0x" + digits| ==> ("0x" + digits)[i] != '-' by {
        forall i | 0 <= i < |"0x" + digits|
          ensures ("0x" + digits)[i] != '-'
        {
          if i >= 2 {
            assert ("0x" + digits)[i] == digits[i - 2];
          }
        }
      }
    } else {
      assert EncodeQuantity(n)[0] == '-';
    }
  }

  /** The `validateTxParams` tests: value `0x01` passes, `-0x01` fails. */
  lemma ValidateTxParamsTestCases()
    ensures var from := Str(TestSender);
      && ValidateTxParams(map["from" := from, "value" := Str("0x01")]).Success?
      && ValidateTxParams(map["from" := from, "value" := Str("-0x01")]) == Failure(NegativeValue("-0x01"))
  {
    var positive: Params := map["from" := Str(TestSender), "value" := Str("0x01")];
    var negative: Params := map["from" := Str(TestSender), "value" := Str("-0x01")];
    TestSenderIsAddress();
    assert ValidateFrom(positive).Success? && ValidateFrom(negative).Success?;
    assert Field(positive, "to") == None && Field(negative, "to") == None;
    assert !IsNegative(Str("0x01"));
    assert "-0x01"[0] == '-';
    assert IsNegative(Str("-0x01"));
  }

  // ---------------------------------------------------------------------------
  // The pipeline: normalise, then validate
  // ---------------------------------------------------------------------------

  /** What the transaction controller queues: the normalised set, validated. */
  function Validate(p: Params): (r: Result<Params, TxError>)
    ensures r.Success? ==> IsNormalized(r.value)
    ensures r.Success? ==> "from" in r.value && r.value["from"].Str? && IsAddress(r.value["from"].s)
    ensures r.Success? ==> Field(r.value, "to") != Some(Str("0x"))
    ensures r.Success? ==> "chainId" !in r.value
  {
    NormalizeYieldsNormalized(p);
    AcceptedNormalizedFacts(NormalizeTxParams(p));
    ValidateTxParams(NormalizeTxParams(p))
  }

  /** Validation of a normalised set keeps it normalised and leaves no `0x` recipient. */
  lemma AcceptedNormalizedFacts(n: Params)
    requires IsNormalized(n)
    ensures var r := ValidateTxParams(n);
      r.Success? ==> IsNormalized(r.value) && r.value.Keys <= n.Keys && Field(r.value, "to") != Some(Str("0x"))
  {
    var r := ValidateTxParams(n);
    if r.Success? {
      var v := r.value;
      assert v == ValidateRecipient(n).value;
      assert v.Keys <= n.Keys;
      forall k | k in v
        ensures k in Recognised && Truthy(v[k]) && AddHexPrefix(v[k]) == v[k]
      {
        assert v[k] == n[k];
      }
    }
  }

  /** Validating an already validated set gives it back unchanged. */
  lemma ValidateIdempotent(p: Params)
    requires Validate(p).Success?
    ensures Validate(Validate(p).value) == Validate(p)
  {
    var v := Validate(p).value;
    NormalizeKeepsNormalized(v);
    var n := NormalizeTxParams(p);
    assert v == ValidateRecipient(n).value;
  }

  /** Normalisation keeps the minus sign, so the pipeline rejects every negative quantity. */
  lemma PipelineRejectsNegativeValue(p: Params, n: int)
    requires n < 0
    requires Field(p, "value") == Some(Str(EncodeQuantity(n)))
    ensures Validate(p).Failure?
  {
    var q := NormalizeTxParams(p);
    var e := EncodeQuantity(n);
    assert e[0] == '-';
    assert "value" in q;
    var w := q["value"].s;
    assert w[|w| - |e|..] == e;
    assert w[|w| - |e|] == '-';
    if ValidateFrom(q).Success? && ValidateRecipient(q).Success? {
      assert IsNegative(q["value"]);
    }
  }
}

=== FILE: wrappers.dfy ===
/** Failure-compatible wrappers shared by the wallet modules. */
module Wrappers {

  /** An optional value: `None` stands for JavaScript's `undefined`. */
  datatype Option<+T> = None | Some(value: T) {

    /** The wrapped value, or `default` when there is none. */
    function GetOr(default: T): T {
      match this
      case Some(v) => v
      case None => default
    }
  }

  /** Either a value or an error: a thrown exception becomes a `Failure`. */
  datatype Result<+R, +E> = Success(value: R) | Failure(error: E) {

    predicate IsFailure() {
      Failure?
    }

    function PropagateFailure<U>(): Result<U, E>
      requires Failure?
    {
      Failure(error)
    }

    function Extract(): R
      requires Success?
    {
      value
    }
  }
}
